=== FILE: README.md ===
# rusty-gst-qt control protocol in Dafny

A model of the control protocol between the two processes of rusty-gst-qt.

- The **controller** is the Qt launcher in `src/main.rs`. It owns the `LaunchGui` object and a one-cell state store.
- The **worker** is `src/bin/runner-async.rs`. It owns the GStreamer pipeline.

The two processes talk over OSC datagrams. Only a message's address pattern carries meaning.

- `/command/play` and `/command/pause` go from the controller to the worker on `localhost:5050`.
- `/state/playing`, `/state/paused`, `/state/error` and `/state/eos` go from the worker to the controller on `localhost:5051`.

Modules:

- `Protocol` (protocol.dfy): packets, address patterns, and `Outcome`. `Outcome` is either completion or a panic with its text.
- `Worker` (worker.dfy): the worker process.
  - Command dispatch: `Dispatch`, and `Apply` for its effect on the pipeline.
  - The bus-event handler: `React` for one event, `Bridge` as a reference definition over the events it handles, and `RunBridge` as the loop.
  - The launch description: `PipelineString`.
  - The single-threaded main loop over interleaved commands and bus events: `Serve` and `WorkerMain`. The pipeline is first requested `Playing`.
  - An end-of-stream or error event calls `loop_.quit()`. That call does not end the handler loop, which has no `break`. The handler goes on handling every bus event it still gets, for example events already queued. It sends a message for each end of stream, each error, and each change of the pipeline itself to `Playing` or `Paused`. So the model takes as input the events the handler actually handles before the main loop returns. The quit is a flag. When the flag is set and the loop returns, the pipeline is set to `Null`.
  - A panic in the handler ends it. Messages sent before the panic stay sent.
- `Store` (store.dfy): the controller's `PipelineState` cell.
  - The cell starts at `Unknown` (`Store.Initial`).
  - `Apply` and `Listen` describe how state messages update it.
  - `IsPlaying` reads it.
- `Gui` (gui.dfy): the `LaunchGui` record state machine.
  - `Start`, `Stop`, `UpdateRunningState` and `CheckPlaying`.
  - The play and pause datagrams.
  - Runs of user actions. Each action carries what the operating system answers: whether the spawn succeeds, whether the kill succeeds, whether the debug asset exists.
- `EndToEnd` (end_to_end.dfy): the two processes connected.
  - The endpoints match.
  - Each command requests the intended pipeline state.
  - A fresh store that receives everything the worker sends, once each and in send order, ends at the last state the engine reported.

Engine events, process handles and file existence are plain data or boolean inputs. The engine's own response to a state request is not modelled: state changes arrive as bus events in the input.

## Model

| member | source | states |
|---|---|---|
| Worker.PipelineString | src/bin/runner-async.rs:110-112 | The launch description is the `playbin uri=file://` prefix followed by the path, so its length is the prefix length plus the path length. |
| Worker.Dispatch | src/bin/runner-async.rs:19-35 | A packet requests `Playing` iff it is a message addressed `/command/play`, and `Paused` iff it is addressed `/command/pause`. Bundles and other addresses request nothing. |
| Worker.DispatchIgnoresArguments | src/bin/runner-async.rs:21-33 | Two messages with the same address request the same thing, whatever their arguments. |
| Worker.Apply | src/bin/runner-async.rs:22-33 | Play sets the pipeline to `Playing` and pause sets it to `Paused`. Any other packet leaves it unchanged. `Worker.ServeFollowsLastCommand` relates it to the last command. |
| Worker.React | src/bin/runner-async.rs:58-106 | EOS sends `/state/eos` and asks to quit. Error sends `/state/error` and asks to quit. A state change from an object that is not a `Pipeline` sends nothing. A state change from a `Pipeline` sends `/state/playing` iff the new state is Playing and `/state/paused` iff it is Paused, and nothing otherwise. Other kinds send nothing. Only EOS and Error ask to quit. A state change with no source panics, and nothing else does. |
| Worker.Bridge | src/bin/runner-async.rs:53-107 | The handler takes every event it is given unless it panics. When it panics, it stops right at the panicking event. |
| Worker.RunBridge | src/bin/runner-async.rs:53-107 | The handler loop computes the same sent messages, event count, quit flag and panic as the reference definition `Bridge`. |
| Worker.BridgeQuitsOnTerminal | src/bin/runner-async.rs:59-65 | The handler has asked the main loop to quit iff it has handled an EOS or Error event. |
| Worker.BridgePanicsOnUnattributedChange | src/bin/runner-async.rs:67-73 | The handler panics iff some event is a state change without a source. It stops at the first such event, with the `No source of message` text. |
| Worker.BridgeAppend | src/bin/runner-async.rs:53-107 | Handling two batches in turn equals handling their concatenation. Messages accumulate, and a quit request is never withdrawn. |
| Worker.BridgeStopsAtPanic | src/bin/runner-async.rs:67-73 | After a panic, the handler takes no further event. |
| Worker.BridgeSendsOneFinalReport | src/bin/runner-async.rs:58-106 | Suppose the loop returns right after the first EOS or Error event. Then the handler has sent only progress reports, followed by exactly one final report that matches that event. |
| Worker.DrainedEventsAreReported | src/bin/runner-async.rs:92-107 | Two error events that are both handled send two `/state/error` messages. `loop_.quit()` does not stop the handler. |
| Worker.Serve | src/bin/runner-async.rs:128-139 | The main loop runs both handlers over interleaved inputs. It sends at most one message per bus event. Its only panic is the missing-source one. `ServeReportsLikeBridge` and `ServeFollowsLastCommand` give its meaning. |
| Worker.ServeReportsLikeBridge | src/bin/runner-async.rs:135-139 | For the same bus events, interleaved commands change neither what the worker sends, nor whether it asks to quit, nor whether it panics. All three equal the handler's over the bus events alone. The engine's own reaction to a command, such as a later state change, arrives as a bus event in the input. |
| Worker.ServeFollowsLastCommand | src/bin/runner-async.rs:131-136 | Unless a handler panicked, the pipeline is in the state the last command requested, or in its starting state when no command requested one. A quit request does not stop commands from being carried out. |
| Worker.ServeStopsAtPanic | src/bin/runner-async.rs:67-73 | After a panic, no later command or event is handled. |
| Worker.WorkerMain | src/bin/runner-async.rs:128-143 | The worker starts at `Playing`. Once quit was requested and the loop returns, the pipeline is `Null`. Otherwise it is in the state of the last command. What it sends, and whether it quits or panics, equal the handler's over the bus events. |
| Store.Recognise | src/main.rs:120-142 | A packet is recognised iff it is a message whose address is one of the four state addresses. It never reports `Unknown`. |
| Store.Apply | src/main.rs:120-142 | Each of the four state addresses sets the store to its state, whatever the store held before. Bundles and other addresses leave the store unchanged. |
| Store.Listen | src/main.rs:117-144 | The listener loop folds `Apply` over the packets in arrival order. The store either keeps its value or holds a state other than `Unknown`, and it is unchanged when no packet is recognised. `ListenKeepsLastRecognised` gives the full meaning. |
| Store.ApplyIdempotent | src/main.rs:123-138 | Applying the same packet twice gives the same store as applying it once. |
| Store.ListenAppend | src/main.rs:118-144 | Listening to two batches in turn is the same as listening to their concatenation. |
| Store.ListenKeepsLastRecognised | src/main.rs:118-144 | After a sequence of packets, the store holds the state of the last recognised packet. If no packet was recognised, it keeps its previous value. |
| Store.LastRecognisedAppend | src/main.rs:118-144 | The last recognised packet of a concatenation comes from the second part when that part has one, and from the first part otherwise. |
| Store.ListenDuplicateBatch | src/main.rs:118-144 | Receiving a batch twice over leaves the store as receiving it once. |
| Store.IsPlaying | src/main.rs:156-158 | True iff the state is `Playing`. |
| Gui.LaunchAsyncRunner | src/main.rs:23-31 | A successful spawn runs `target/debug/runner-async` with exactly the arguments `--video-path` and the path. A failed spawn panics. |
| Gui.UpdateRunningState | src/main.rs:53-56 | Afterwards `started` holds iff a handle is held. Nothing else changes. One `started` notification is raised. |
| Gui.LaunchPath | src/main.rs:60-72 | A chosen path is used as is. With no path, the debug asset `/home/mariuszk/sample.mp4` is used when it exists, and the action panics when it does not. |
| Gui.Start | src/main.rs:58-75 | With a chosen path, start succeeds iff the spawn does. With no path, it succeeds iff the debug asset exists and the spawn succeeds. A missing asset panics with the debug-mode text. On success the handle is the new worker on the right path, any old handle is replaced, `started` is true, the other fields are unchanged, and one notification is raised. |
| Gui.Stop | src/main.rs:86-93 | Stop succeeds iff a handle is held and the kill succeeds. With no handle it panics. On success the handle is cleared, `started` is false, the other fields are unchanged, and one notification is raised. |
| Gui.CheckPlaying | src/main.rs:77-84 | Afterwards `playing` equals `IsPlaying` of the store. One notification is raised iff the value changed, and none otherwise. Nothing else changes. |
| Gui.CheckPlayingSettles | src/main.rs:77-84 | A second poll with the store unchanged raises nothing and changes nothing. |
| Gui.Play | src/main.rs:95-102 | Play sends one `/command/play` message from an ephemeral port to `localhost:5050`. |
| Gui.Pause | src/main.rs:104-111 | Pause sends one `/command/pause` message from an ephemeral port to `localhost:5050`. |
| Gui.Perform | src/main.rs:52-111 | Play and pause send exactly their datagram and change nothing else. A poll sets `playing` from the store and notifies iff it changed. A start succeeds iff the spawn succeeds and a path is chosen or the debug asset exists; it then holds a handle on that path, shows `started`, and raises one notification. A stop succeeds iff a handle is held and the kill succeeds; it then drops the handle, clears `started`, and raises one notification. No action changes the chosen path. |
| Gui.Run | src/main.rs:52-111 | A run of actions sends at most one datagram per action and never changes the chosen path. `RunAppend`, `RunSingle`, `RunStopsAtPanic`, `RunKeepsConsistent` and `RunSendsOnlyCommands` give its meaning. |
| Gui.RunAppend | src/main.rs:52-111 | A run over two batches of actions is the run over the first, then the run over the second from where the first left the object. The notifications and datagrams of both are kept, in order. |
| Gui.RunSingle | src/main.rs:52-111 | A run of one action is exactly that action, with its notifications and datagrams. |
| Gui.RunStopsAtPanic | src/main.rs:52-111 | Once a run panics, later actions change nothing. The panic is the outcome of the whole run. |
| Gui.PerformKeepsConsistent | src/main.rs:52-111 | Every action that completes keeps `started` equal to whether a handle is held. |
| Gui.RunKeepsConsistent | src/main.rs:52-111 | Over any run of actions without a panic, `started` stays equal to whether a handle is held. |
| Gui.RunFromFreshKeepsConsistent | src/main.rs:33-56 | The object starts with no handle and `started` false. So along any run from creation that does not panic, `started` equals whether a handle is held. |
| Gui.Commands | src/main.rs:95-111 | The reference list of commands a run sends: one datagram per play or pause action, each addressed to the command endpoint. |
| Gui.RunSendsOnlyCommands | src/main.rs:95-111 | A run that does not panic sends exactly `Commands(actions)`: `/command/play` for each play action and `/command/pause` for each pause action, in the order the actions were taken, and nothing for any other action. All of them go to the command endpoint. |
| Gui.StopThenStartRelaunches | src/main.rs:58-93 | Stopping a started worker clears the handle. A following start with a chosen path launches a new worker on that path. |
| Gui.StartWithoutMediaPanics | src/main.rs:62-70 | With no path and no debug asset, a run that begins with start panics and never reaches a started state. |
| EndToEnd.EndpointsAgree | src/bin/runner-async.rs:8-10 | The controller sends commands to the worker's listening endpoint. The worker sends state messages to the controller's listening endpoint. |
| EndToEnd.CommandsReachWorker | src/main.rs:95-111 | The play datagram requests exactly `Playing` of the worker, and the pause datagram exactly `Paused`. |
| EndToEnd.ReactionIsRecognised | src/bin/runner-async.rs:58-106 | The message the worker sends for an event is recognised by the controller as exactly the state that event stands for. |
| EndToEnd.BridgeCarriesLastReport | src/bin/runner-async.rs:53-107 | The last state the controller recognises in the handler's output is the last state reported by the events the handler handled. This holds also when the handler panicked. |
| EndToEnd.ControllerSeesLastReport | src/main.rs:114-145 | A fresh store that receives everything the handler sends holds the last reported state. It holds `Unknown` when no handled event reported a state. Messages sent before a worker panic count. |
| EndToEnd.ControllerEndsAtFinalReport | src/main.rs:131-138 | When the last handled event is EOS or Error, the store ends at `EndOfStream` or `Error` to match, whatever the store held before. |
| EndToEnd.WorkerKeepsControllerInformed | src/bin/runner-async.rs:114-146 | The whole worker, with commands and events interleaved, leaves a fresh store at the last state its handled bus events reported, panic or not. |
| EndToEnd.PlayRoundTrip | src/main.rs:77-111 | A play command, carried out and reported back, makes the store read `Playing`. The next poll then shows `playing`, and it raises a notification iff `playing` was not shown before. |

## Left out

- Sockets: binding, connecting, sending and receiving OSC packets are network I/O. Packets are values, and a stream of received packets is a sequence.
- Received datagrams that fail to decode are left out. Both listeners `unwrap` them, which panics. The model takes decoded packets only.
- State datagrams in transit: the end-to-end lemmas (`EndToEnd.ControllerSeesLastReport`, `EndToEnd.WorkerKeepsControllerInformed`, `EndToEnd.PlayRoundTrip`) feed the worker's messages to the store unchanged. They assume every state datagram arrives exactly once and in send order, which UDP does not promise. For any other received sequence, `Store.ListenKeepsLastRecognised` gives the store: the state of the last recognised packet received.
- Failed state-message sends are left out. The transport is treated as reliable at the sender. The worker's sends use `expect`, so a failed send panics. That path is not modelled.
- Failed sends of play and pause are left out. Their results are discarded inside a spawned task, so they never affect the object or the store.
- GStreamer: launch parsing, `set_state` failures and the bus are left out, because the engine is a foreign library. `WorkerMain` records the state the worker requests, and bus events are inputs.
- The glib main loop and task spawning: the two worker handlers share one single-threaded context. Their interleaving is a sequence of `Worker.Input`.
- Worker.Serve: which commands and bus events are still handled after `loop_.quit()`, before the main loop returns, depends on glib scheduling. The model takes the handled inputs as given and does not bound how many follow the quit request. The same holds for `Worker.Bridge`.
- `lazy_static` and `Arc<Mutex<…>>` exist only for sharing between tasks. The store is a value. The poll action receives whichever store value the listener has produced so far.
- Qt/QML properties and signals are left out. A notification is an element of `Gui.Effect.raised`. The `video` property is set by the user interface and is only read here. Its change signal is not modelled.
- Spawning and killing processes, and checking whether the debug asset exists, are operating-system calls. They are boolean inputs, and a child is a token holding its program and arguments.
- The controller spawns the worker with its standard output piped and never reads that pipe. The worker prints a line on each command and on each change of the pipeline's state. Once the pipe's buffer is full, those prints would block the worker's single main-loop thread, stalling both handlers. This is not modelled: printing is treated as never blocking.
- Logging and command-line parsing are left out, including the unused width and height options of the worker.
- Starting while a worker is already started replaces the handle without killing the old child. The model does the same, so `Gui.Start` states it.

=== FILE: end_to_end.dfy ===
/**
The two processes together: the controller's commands reach the worker's
command endpoint and request the matching pipeline state, and the state
messages the worker forwards leave the controller's store holding the last
pipeline state the engine reported.
*/
module EndToEnd {
  import opened Protocol
  import Worker
  import Store
  import Gui

  /** The controller sends commands where the worker listens, and the worker
      sends state messages where the controller listens. */
  lemma EndpointsAgree()
    ensures Gui.CommandEndpoint == Worker.CommandEndpoint
    ensures Worker.StateEndpoint == Store.ListenEndpoint
  {
  }

  /** The play and pause actions arrive at the worker's command endpoint and
      request exactly `Playing` and `Paused` of its pipeline. */
  lemma CommandsReachWorker()
    ensures Gui.Play().to == Worker.CommandEndpoint
    ensures Worker.Dispatch(Gui.Play().packet) == Some(Worker.Playing)
    ensures Gui.Pause().to == Worker.CommandEndpoint
    ensures Worker.Dispatch(Gui.Pause().packet) == Some(Worker.Paused)
  {
  }

  /** The controller state an engine event stands for, read straight off
      the event: end of stream, error, or the pipeline itself entering
      playing or paused. */
  function Reported(e: Worker.BusEvent): Option<Store.PipelineState>
  {
    match e
    case Eos => Some(Store.EndOfStream)
    case Error => Some(Store.Error)
    case StateChanged(source, current) =>
      if source != Worker.Pipeline then None
      else if current == Worker.Playing then Some(Store.Playing)
      else if current == Worker.Paused then Some(Store.Paused)
      else None
    case OtherKind => None
  }

  /** The state of the last event that stands for one, looking from the end. */
  function LastReported(events: seq<Worker.BusEvent>): Option<Store.PipelineState>
    decreases |events|
  {
    if |events| == 0 then None
    else
      match Reported(events[|events| - 1])
      case Some(s) => Some(s)
      case None => LastReported(events[..|events| - 1])
  }

  /** The last reported state of a concatenation comes from its second part
      when that part reports anything. */
  lemma {:induction false} LastReportedAppend(a: seq<Worker.BusEvent>, b: seq<Worker.BusEvent>)
    ensures LastReported(a + b) ==
      if LastReported(b).Some? then LastReported(b) else LastReported(a)
    decreases |b|
  {
    if |b| == 0 {
      assert a + b == a;
    } else {
      var ab := a + b;
      assert ab[|ab| - 1] == b[|b| - 1];
      assert ab[..|ab| - 1] == a + b[..|b| - 1];
      LastReportedAppend(a, b[..|b| - 1]);
    }
  }

  /** The message the worker sends for one event is recognised by the
      controller as exactly the state that event stands for. */
  lemma ReactionIsRecognised(e: Worker.BusEvent)
    requires Worker.React(e).Done?
    ensures Store.LastRecognised(Worker.Emitted(Worker.React(e).value)) == Reported(e)
  {
  }

  /** What the message handler sends is recognised, as a whole, as the last
      state the events it handled stand for, also when it panicked. */
  lemma {:induction false} BridgeCarriesLastReport(events: seq<Worker.BusEvent>)
    ensures var run := Worker.Bridge(events);
      Store.LastRecognised(run.sent) == LastReported(events[..run.handled])
    decreases |events|
  {
    if |events| == 0 {
      assert events[..0] == [];
    } else {
      var e := events[0];
      assert LastReported([e]) == Reported(e) by {
        assert [e][..0] == [];
      }
      if Worker.React(e).Panic? {
        assert events[..1] == [e];
      } else {
        var now := Worker.Emitted(Worker.React(e).value);
        ReactionIsRecognised(e);
        var tail := events[1..];
        BridgeCarriesLastReport(tail);
        var rest := Worker.Bridge(tail);
        assert events[..1 + rest.handled] == [e] + tail[..rest.handled];
        Store.LastRecognisedAppend(now, rest.sent);
        LastReportedAppend([e], tail[..rest.handled]);
      }
    }
  }

  /** Feeding everything the message handler sends into a fresh controller
      store leaves it holding the last state the handled events stand for, or
      `Unknown` when none stands for one. Messages sent before a panic count. */
  lemma ControllerSeesLastReport(events: seq<Worker.BusEvent>)
    ensures var run := Worker.Bridge(events);
      Store.Listen(Store.Initial, run.sent) ==
        match LastReported(events[..run.handled])
        case Some(s) => s
        case None => Store.Unknown
  {
    BridgeCarriesLastReport(events);
    Store.ListenKeepsLastRecognised(Store.Initial, Worker.Bridge(events).sent);
  }

  /** When the last event handled is an end of stream or an error, the
      controller's store ends at `EndOfStream` or `Error` to match, whatever
      it held before. */
  lemma ControllerEndsAtFinalReport(store: Store.PipelineState, events: seq<Worker.BusEvent>)
    requires Worker.Bridge(events).panic.None?
    requires |events| > 0 && Worker.IsTerminal(events[|events| - 1])
    ensures Store.Listen(store, Worker.Bridge(events).sent) ==
      if events[|events| - 1].Eos? then Store.EndOfStream else Store.Error
  {
    var run := Worker.Bridge(events);
    BridgeCarriesLastReport(events);
    Store.ListenKeepsLastRecognised(store, run.sent);
    assert events[..run.handled] == events;
  }

  /** The whole worker, commands and bus events interleaved, leaves a fresh
      controller store at the last state its handled bus events stand for.
      The proof is one step through `ControllerSeesLastReport`; automatic
      induction is switched off so that Dafny does not try an induction on
      `inputs` of its own. */
  lemma {:induction false} WorkerKeepsControllerInformed(inputs: seq<Worker.Input>)
    ensures var events := Worker.BusEvents(inputs);
      Store.Listen(Store.Initial, Worker.WorkerMain(inputs).sent) ==
        match LastReported(events[..Worker.Bridge(events).handled])
        case Some(s) => s
        case None => Store.Unknown
  {
    ControllerSeesLastReport(Worker.BusEvents(inputs));
  }

  /** A play command that the pipeline carries out, once its report arrives,
      makes the next poll show `playing`, raising a notification exactly when
      the object did not already show it. */
  lemma PlayRoundTrip(g: Gui.LaunchGui, store: Store.PipelineState)
    ensures var request := Worker.Dispatch(Gui.Play().packet);
      && request == Some(Worker.Playing)
      && var run := Worker.Bridge([Worker.StateChanged(Worker.Pipeline, request.value)]);
      && var store' := Store.Listen(store, run.sent);
      && store' == Store.Playing
      && Gui.CheckPlaying(g, store').gui.playing
      && (Gui.CheckPlaying(g, store').raised == [Gui.PlayingChanged] <==> !g.playing)
  {
  }
}

=== FILE: gui.dfy ===
/**
The controller's user-facing object, `LaunchGui` (src/main.rs): it starts and
stops the worker process, derives its `started` flag from whether it holds a
worker handle, mirrors the store into its `playing` flag, and sends the play
and pause commands.
*/
module Gui {
  import opened Protocol
  import Store

  /** The worker executable the controller launches. */
  const RunnerProgram: string := "target/debug/runner-async"
  /** The option that passes the media path to the worker. */
  const VideoPathOption: string := "--video-path"
  /** The media file used when no path was chosen. */
  const DebugAsset: string := "/home/mariuszk/" + "sample.mp4"

  /** The endpoint command senders bind: an OS-assigned port. */
  const SenderEndpoint: string := "localhost:0"
  /** The endpoint commands are sent to. */
  const CommandEndpoint: string := "localhost:5050"

  // Panic texts.
  const SpawnFailedText: string := "Failed to execute process"
  const DebugUnavailableText: string := "Debug mode unavailable. You need to place a file 'sample.mp4' in your HOME directory"
  const KillFailedText: string := "Couldn't kill the process"
  const NoHandleText: string := "Handle should be available"

  /** A launched worker process, known by its program and arguments. */
  datatype Child = Child(program: string, args: seq<string>)

  /** The object's state: the chosen media path, the two flags it shows, and
      the handle of the running worker, if any. */
  datatype LaunchGui = LaunchGui(video: string, started: bool, playing: bool, handle: Option<Child>)

  /** The change notifications the object raises. */
  datatype Notification = StartedChanged | PlayingChanged

  /** The object after an action, with the notifications it raised. */
  datatype Effect = Effect(gui: LaunchGui, raised: seq<Notification>)

  /** The object as first created: every field at its default value. */
  const Fresh: LaunchGui := LaunchGui("", false, false, None)

  /** The `started` flag agrees with holding a worker handle. */
  predicate Consistent(g: LaunchGui)
  {
    g.started == g.handle.Some?
  }

  /** Spawns the worker on `videoPath`; `spawns` says whether the operating
      system manages to start the process. */
  function LaunchAsyncRunner(videoPath: string, spawns: bool): (r: Outcome<Child>)
    ensures r.Done? <==> spawns
    ensures r.Done? ==> r.value.program == RunnerProgram
    ensures r.Done? ==> r.value.args == [VideoPathOption, videoPath]
    ensures r.Panic? ==> r.message == SpawnFailedText
  {
    if spawns then Done(Child(RunnerProgram, [VideoPathOption, videoPath]))
    else Panic(SpawnFailedText)
  }

  /** Recomputes `started` from the handle and always notifies. */
  function UpdateRunningState(g: LaunchGui): (e: Effect)
    ensures Consistent(e.gui)
    ensures e.gui.video == g.video && e.gui.playing == g.playing && e.gui.handle == g.handle
    ensures e.raised == [StartedChanged]
  {
    Effect(g.(started := g.handle.Some?), [StartedChanged])
  }

  /** The media path `start` launches with: the chosen path, or the debug
      asset when none was chosen, which must then exist. */
  function LaunchPath(video: string, assetExists: bool): (r: Outcome<string>)
    ensures |video| != 0 ==> r == Done(video)
    ensures |video| == 0 && assetExists ==> r == Done(DebugAsset)
    ensures |video| == 0 && !assetExists ==> r == Panic(DebugUnavailableText)
  {
    if |video| != 0 then Done(video)
    else if assetExists then Done(DebugAsset)
    else Panic(DebugUnavailableText)
  }

  /** Launches a worker and stores its handle, replacing any handle already
      held. `assetExists` says whether the debug asset is on disk. */
  function Start(g: LaunchGui, assetExists: bool, spawns: bool): (r: Outcome<Effect>)
    ensures |g.video| != 0 ==> (r.Done? <==> spawns)
    ensures |g.video| == 0 ==> (r.Done? <==> assetExists && spawns)
    ensures |g.video| == 0 && !assetExists ==> r == Panic(DebugUnavailableText)
    ensures r.Done? ==>
      && r.value.gui.handle == Some(Child(RunnerProgram, [VideoPathOption, if |g.video| != 0 then g.video else DebugAsset]))
      && r.value.gui.started
      && r.value.gui.video == g.video
      && r.value.gui.playing == g.playing
      && r.value.raised == [StartedChanged]
  {
    match LaunchPath(g.video, assetExists)
    case Panic(m) => Panic(m)
    case Done(path) =>
      match LaunchAsyncRunner(path, spawns)
      case Panic(m) => Panic(m)
      case Done(child) => Done(UpdateRunningState(g.(handle := Some(child))))
  }

  /** Kills the worker and drops its handle. Stopping without a handle, or
      failing to kill (`kills` false), panics. */
  function Stop(g: LaunchGui, kills: bool): (r: Outcome<Effect>)
    ensures r.Done? <==> g.handle.Some? && kills
    ensures g.handle.None? ==> r == Panic(NoHandleText)
    ensures g.handle.Some? && !kills ==> r == Panic(KillFailedText)
    ensures r.Done? ==>
      && r.value.gui.handle.None?
      && !r.value.gui.started
      && r.value.gui.video == g.video
      && r.value.gui.playing == g.playing
      && r.value.raised == [StartedChanged]
  {
    match g.handle
    case None => Panic(NoHandleText)
    case Some(_) =>
      if !kills then Panic(KillFailedText)
      else Done(UpdateRunningState(g.(handle := None)))
  }

  /** Polls the store: `playing` follows it, and a notification is raised
      only when the flag actually changes. */
  function CheckPlaying(g: LaunchGui, store: Store.PipelineState): (e: Effect)
    ensures e.gui.playing == Store.IsPlaying(store)
    ensures e.gui.video == g.video && e.gui.started == g.started && e.gui.handle == g.handle
    ensures e.raised == if g.playing != Store.IsPlaying(store) then [PlayingChanged] else []
  {
    var playing := Store.IsPlaying(store);
    if g.playing != playing then Effect(g.(playing := playing), [PlayingChanged])
    else Effect(g, [])
  }

  /** Polling twice with the store unchanged raises nothing the second time. */
  lemma CheckPlayingSettles(g: LaunchGui, store: Store.PipelineState)
    ensures CheckPlaying(CheckPlaying(g, store).gui, store).raised == []
    ensures CheckPlaying(CheckPlaying(g, store).gui, store).gui == CheckPlaying(g, store).gui
  {
  }

  /** The datagram the play action sends to the worker. */
  function Play(): (d: Datagram)
    ensures d.from == SenderEndpoint && d.to == CommandEndpoint
    ensures d.packet.Message? && d.packet.address == CommandPlay
  {
    Datagram(SenderEndpoint, CommandEndpoint, Outgoing(CommandPlay))
  }

  /** The datagram the pause action sends to the worker. */
  function Pause(): (d: Datagram)
    ensures d.from == SenderEndpoint && d.to == CommandEndpoint
    ensures d.packet.Message? && d.packet.address == CommandPause
  {
    Datagram(SenderEndpoint, CommandEndpoint, Outgoing(CommandPause))
  }

  /** The user actions, each with what the operating system or the store
      answers when it runs. */
  datatype Action =
    | StartAction(assetExists: bool, spawns: bool)
    | StopAction(kills: bool)
    | Poll(store: Store.PipelineState)
    | PlayAction
    | PauseAction

  /** The object after a run of actions, with every notification raised and
      every command sent, in the order the actions were taken. */
  datatype Trace = Trace(gui: LaunchGui, raised: seq<Notification>, sent: seq<Datagram>)

  /** One action. Play and pause fire and forget: they never touch the
      object, whatever happens to the datagram. */
  function Perform(g: LaunchGui, a: Action): (r: Outcome<Trace>)
    ensures a.PlayAction? ==> r == Done(Trace(g, [], [Play()]))
    ensures a.PauseAction? ==> r == Done(Trace(g, [], [Pause()]))
    ensures a.Poll? ==> r.Done? && r.value.gui.handle == g.handle && r.value.gui.started == g.started
    ensures a.Poll? ==> r.value.gui.playing == Store.IsPlaying(a.store)
    ensures a.Poll? ==> r.value.raised == if g.playing != Store.IsPlaying(a.store) then [PlayingChanged] else []
    ensures a.StartAction? ==> (r.Done? <==> a.spawns && (|g.video| != 0 || a.assetExists))
    ensures a.StartAction? && r.Done? ==>
      && r.value.gui.started
      && r.value.gui.handle == Some(Child(RunnerProgram, [VideoPathOption, if |g.video| != 0 then g.video else DebugAsset]))
      && r.value.raised == [StartedChanged]
    ensures a.StopAction? ==> (r.Done? <==> g.handle.Some? && a.kills)
    ensures a.StopAction? && r.Done? ==> !r.value.gui.started && r.value.gui.handle.None? && r.value.raised == [StartedChanged]
    ensures r.Done? && !a.PlayAction? && !a.PauseAction? ==> r.value.sent == []
    ensures r.Done? ==> r.value.gui.video == g.video
  {
    match a
    case StartAction(assetExists, spawns) =>
      (match Start(g, assetExists, spawns)
       case Panic(m) => Panic(m)
       case Done(e) => Done(Trace(e.gui, e.raised, [])))
    case StopAction(kills) =>
      (match Stop(g, kills)
       case Panic(m) => Panic(m)
       case Done(e) => Done(Trace(e.gui, e.raised, [])))
    case Poll(store) =>
      var e := CheckPlaying(g, store);
      Done(Trace(e.gui, e.raised, []))
    case PlayAction => Done(Trace(g, [], [Play()]))
    case PauseAction => Done(Trace(g, [], [Pause()]))
  }

  /** A run of actions, stopping at the first panic. */
  function Run(g: LaunchGui, actions: seq<Action>): (r: Outcome<Trace>)
    ensures r.Done? ==> |r.value.sent| <= |actions|
    ensures r.Done? ==> r.value.gui.video == g.video
    decreases |actions|
  {
    if |actions| == 0 then Done(Trace(g, [], []))
    else
      match Perform(g, actions[0])
      case Panic(m) => Panic(m)
      case Done(t) =>
        match Run(t.gui, actions[1..])
        case Panic(m) => Panic(m)
        case Done(rest) => Done(Trace(rest.gui, t.raised + rest.raised, t.sent + rest.sent))
  }

  /** A run over two batches of actions is the run over the first, followed
      by the run over the second from where the first left the object, with
      the notifications and the datagrams of both in order. */
  lemma {:induction false} RunAppend(g: LaunchGui, a: seq<Action>, b: seq<Action>)
    requires Run(g, a).Done?
    ensures var first := Run(g, a).value;
      Run(g, a + b) ==
        match Run(first.gui, b)
        case Panic(m) => Panic(m)
        case Done(rest) => Done(Trace(rest.gui, first.raised + rest.raised, first.sent + rest.sent))
    decreases |a|
  {
    if |a| == 0 {
      assert a + b == b;
      match Run(g, b)
      case Panic(_) =>
      case Done(rest) =>
        assert [] + rest.raised == rest.raised;
        assert [] + rest.sent == rest.sent;
    } else {
      assert (a + b)[0] == a[0];
      assert (a + b)[1..] == a[1..] + b;
      var t := Perform(g, a[0]).value;
      RunAppend(t.gui, a[1..], b);
      var first := Run(t.gui, a[1..]).value;
      match Run(first.gui, b)
      case Panic(_) =>
      case Done(rest) =>
        assert t.raised + (first.raised + rest.raised) == (t.raised + first.raised) + rest.raised;
        assert t.sent + (first.sent + rest.sent) == (t.sent + first.sent) + rest.sent;
    }
  }

  /** A single action runs as that action alone. */
  lemma RunSingle(g: LaunchGui, a: Action)
    ensures Run(g, [a]) == Perform(g, a)
  {
    assert [a][1..] == [];
    match Perform(g, a)
    case Panic(_) =>
    case Done(t) =>
      assert t.raised + [] == t.raised;
      assert t.sent + [] == t.sent;
  }

  /** Once a run panics, the actions after it change nothing: the panic is
      the outcome of the whole run. */
  lemma {:induction false} RunStopsAtPanic(g: LaunchGui, a: seq<Action>, b: seq<Action>)
    requires Run(g, a).Panic?
    ensures Run(g, a + b) == Run(g, a)
    decreases |a|
  {
    assert (a + b)[0] == a[0];
    assert (a + b)[1..] == a[1..] + b;
    if Perform(g, a[0]).Done? {
      RunStopsAtPanic(Perform(g, a[0]).value.gui, a[1..], b);
    }
  }

  /** Every action keeps `started` in step with the handle. */
  lemma PerformKeepsConsistent(g: LaunchGui, a: Action)
    requires Consistent(g)
    requires Perform(g, a).Done?
    ensures Consistent(Perform(g, a).value.gui)
  {
  }

  /** Over any run of actions that does not panic, `started` stays in step
      with the handle. */
  lemma {:induction false} RunKeepsConsistent(g: LaunchGui, actions: seq<Action>)
    requires Consistent(g)
    requires Run(g, actions).Done?
    ensures Consistent(Run(g, actions).value.gui)
    decreases |actions|
  {
    if |actions| > 0 {
      PerformKeepsConsistent(g, actions[0]);
      RunKeepsConsistent(Perform(g, actions[0]).value.gui, actions[1..]);
    }
  }

  /** The object starts out consistent, so every run from creation that does
      not panic keeps `started` in step with the handle. */
  lemma RunFromFreshKeepsConsistent(actions: seq<Action>)
    requires Run(Fresh, actions).Done?
    ensures Consistent(Run(Fresh, actions).value.gui)
  {
    RunKeepsConsistent(Fresh, actions);
  }

  /** The commands a run of actions sends, in the order the actions were
      taken: `Play()` for each play action, `Pause()` for each pause action,
      nothing for the others. */
  function Commands(actions: seq<Action>): (r: seq<Datagram>)
    ensures |r| == CommandCount(actions)
    ensures forall i :: 0 <= i < |r| ==> r[i].to == CommandEndpoint
    decreases |actions|
  {
    if |actions| == 0 then []
    else
      (match actions[0]
       case PlayAction => [Play()]
       case PauseAction => [Pause()]
       case _ => [])
      + Commands(actions[1..])
  }

  /** Only the play and pause actions send anything, one datagram each, in
      the order they were taken, and all of it goes to the worker's command
      endpoint. */
  lemma {:induction false} RunSendsOnlyCommands(g: LaunchGui, actions: seq<Action>)
    requires Run(g, actions).Done?
    ensures Run(g, actions).value.sent == Commands(actions)
    ensures |Run(g, actions).value.sent| == CommandCount(actions)
    ensures forall i :: 0 <= i < |Run(g, actions).value.sent| ==>
      Run(g, actions).value.sent[i].to == CommandEndpoint
    decreases |actions|
  {
    if |actions| > 0 {
      RunSendsOnlyCommands(Perform(g, actions[0]).value.gui, actions[1..]);
    }
  }

  /** The number of play and pause actions. */
  function CommandCount(actions: seq<Action>): nat
    decreases |actions|
  {
    if |actions| == 0 then 0
    else (if actions[0].PlayAction? || actions[0].PauseAction? then 1 else 0) + CommandCount(actions[1..])
  }

  /** Stopping a started worker clears its handle, and a following start
      with a chosen path launches a new worker on that path. */
  lemma StopThenStartRelaunches(g: LaunchGui)
    requires g.handle.Some? && |g.video| != 0
    ensures Stop(g, true).Done?
    ensures Start(Stop(g, true).value.gui, false, true).Done?
    ensures var g' := Start(Stop(g, true).value.gui, false, true).value.gui;
      g'.started && g'.handle == Some(Child(RunnerProgram, [VideoPathOption, g.video]))
  {
  }

  /** With no path chosen and no debug asset on disk, a run that starts the
      worker panics instead of ever reaching a started state. */
  lemma StartWithoutMediaPanics(g: LaunchGui, spawns: bool, actions: seq<Action>)
    requires |g.video| == 0
    ensures Run(g, [StartAction(false, spawns)] + actions) == Panic(DebugUnavailableText)
  {
  }
}

=== FILE: protocol.dfy ===
/**
The vocabulary shared by the controller and the worker: OSC packets reduced to
what the control protocol looks at, the six address patterns of the wire
protocol, and the outcome of an action that may abort its process.
*/
module Protocol {

  /** An OSC argument. The protocol always sends the integer 1 and no
      receiver ever reads an argument back. */
  datatype Arg = Int(i: int) | Float(f: real) | Str(s: string)

  /** An OSC packet: either a bundle of packets or one message made of an
      address pattern and a positional argument list. */
  datatype Packet = Bundle(packets: seq<Packet>) | Message(address: string, args: seq<Arg>)

  /** A packet on its way from a sending endpoint to a target endpoint. */
  datatype Datagram = Datagram(from: string, to: string, packet: Packet)

  datatype Option<+T> = None | Some(value: T)

  /** The result of an action that either completes or panics, aborting the
      process that ran it; `message` is the panic text. */
  datatype Outcome<+T> = Done(value: T) | Panic(message: string)

  // Command channel: controller to worker.
  const CommandPlay: string := "/command/play"
  const CommandPause: string := "/command/pause"

  // State channel: worker to controller.
  const StatePlaying: string := "/state/playing"
  const StatePaused: string := "/state/paused"
  const StateError: string := "/state/error"
  const StateEos: string := "/state/eos"

  /** The four address patterns a worker ever sends. */
  const StateAddresses: set<string> := {StatePlaying, StatePaused, StateError, StateEos}

  /** Every message either side sends: the address and the single argument 1. */
  function Outgoing(address: string): Packet
  {
    Message(address, [Int(1)])
  }
}

=== FILE: store.dfy ===
/**
The controller's state store (src/main.rs): one cell holding the last
pipeline state the worker reported. The state listener overwrites it for every
recognised state message and leaves it alone for anything else; the user
interface reads it through `IsPlaying`.
*/
module Store {
  import opened Protocol

  /** The endpoint the controller listens on for state messages. */
  const ListenEndpoint: string := "localhost:5051"

  /** The last pipeline state the controller has been told about. */
  datatype PipelineState = Unknown | Playing | Paused | Error | EndOfStream

  /** The store's value before any state message has arrived. */
  const Initial: PipelineState := Unknown

  /** The state a packet received on the state endpoint reports, if any. */
  function Recognise(p: Packet): (s: Option<PipelineState>)
    ensures s.Some? <==> p.Message? && p.address in StateAddresses
    ensures s.Some? ==> s.value != Unknown
  {
    match p
    case Bundle(_) => None
    case Message(address, _) =>
      if address == StatePlaying then Some(Playing)
      else if address == StatePaused then Some(Paused)
      else if address == StateError then Some(Error)
      else if address == StateEos then Some(EndOfStream)
      else None
  }

  /** The store after one packet arrives. Only the address pattern counts:
      a recognised one overwrites the store whatever it held, a bundle or an
      unrecognised address leaves it unchanged. */
  function Apply(store: PipelineState, p: Packet): (r: PipelineState)
    ensures p.Message? && p.address == StatePlaying ==> r == Playing
    ensures p.Message? && p.address == StatePaused ==> r == Paused
    ensures p.Message? && p.address == StateError ==> r == Error
    ensures p.Message? && p.address == StateEos ==> r == EndOfStream
    ensures p.Bundle? || p.address !in StateAddresses ==> r == store
  {
    match Recognise(p)
    case Some(s) => s
    case None => store
  }

  /** Applying the same packet twice is applying it once. */
  lemma ApplyIdempotent(store: PipelineState, p: Packet)
    ensures Apply(Apply(store, p), p) == Apply(store, p)
  {
  }

  /** The listener loop: the store after a sequence of packets, in arrival
      order. */
  function Listen(store: PipelineState, packets: seq<Packet>): (r: PipelineState)
    ensures r == store || r != Unknown
    ensures (forall i :: 0 <= i < |packets| ==> Recognise(packets[i]).None?) ==> r == store
    decreases |packets|
  {
    if |packets| == 0 then store
    else Listen(Apply(store, packets[0]), packets[1..])
  }

  /** The state of the last recognised packet, looking from the end. */
  function LastRecognised(packets: seq<Packet>): Option<PipelineState>
    decreases |packets|
  {
    if |packets| == 0 then None
    else
      match Recognise(packets[|packets| - 1])
      case Some(s) => Some(s)
      case None => LastRecognised(packets[..|packets| - 1])
  }

  /** Listening to two batches in turn is listening to their concatenation. */
  lemma {:induction false} ListenAppend(store: PipelineState, a: seq<Packet>, b: seq<Packet>)
    ensures Listen(store, a + b) == Listen(Listen(store, a), b)
    decreases |a|
  {
    if |a| == 0 {
      assert a + b == b;
    } else {
      assert (a + b)[0] == a[0];
      assert (a + b)[1..] == a[1..] + b;
      ListenAppend(Apply(store, a[0]), a[1..], b);
    }
  }

  /** The store holds the state of the last recognised packet, or its
      previous value when no packet was recognised. */
  lemma {:induction false} ListenKeepsLastRecognised(store: PipelineState, packets: seq<Packet>)
    ensures Listen(store, packets) ==
      match LastRecognised(packets)
      case Some(s) => s
      case None => store
    decreases |packets|
  {
    if |packets| > 0 {
      var init := packets[..|packets| - 1];
      var last := packets[|packets| - 1];
      assert packets == init + [last];
      ListenAppend(store, init, [last]);
      ListenKeepsLastRecognised(store, init);
      assert Listen(Listen(store, init), [last]) == Apply(Listen(store, init), last);
    }
  }

  /** The last recognised packet of a concatenation is the last one of the
      second part, or of the first part when the second has none. */
  lemma {:induction false} LastRecognisedAppend(a: seq<Packet>, b: seq<Packet>)
    ensures LastRecognised(a + b) ==
      if LastRecognised(b).Some? then LastRecognised(b) else LastRecognised(a)
    decreases |b|
  {
    if |b| == 0 {
      assert a + b == a;
    } else {
      var ab := a + b;
      assert ab[|ab| - 1] == b[|b| - 1];
      assert ab[..|ab| - 1] == a + b[..|b| - 1];
      LastRecognisedAppend(a, b[..|b| - 1]);
    }
  }

  /** Receiving every packet of a batch twice over leaves the store as
      receiving the batch once. */
  lemma ListenDuplicateBatch(store: PipelineState, packets: seq<Packet>)
    ensures Listen(store, packets + packets) == Listen(store, packets)
  {
    ListenKeepsLastRecognised(store, packets + packets);
    ListenKeepsLastRecognised(store, packets);
    LastRecognisedAppend(packets, packets);
  }

  /** Whether the stored state is `Playing`. */
  function IsPlaying(s: PipelineState): (b: bool)
    ensures b <==> s == Playing
  {
    s == Playing
  }
}

=== FILE: worker.dfy ===
/**
The worker process (src/bin/runner-async.rs): it owns the media pipeline,
turns packets received on its command endpoint into pipeline state requests,
and forwards pipeline bus events to the controller as state messages,
asking its main loop to quit on an end-of-stream or error event.
*/
module Worker {
  import opened Protocol

  /** The endpoint the worker listens on for commands. */
  const CommandEndpoint: string := "localhost:5050"
  /** The endpoint the worker sends state messages to. */
  const StateEndpoint: string := "localhost:5051"

  /** The prefix of the pipeline launch description. */
  const LaunchPrefix: string := "playbin uri=file://"

  /** Panic text of a state-changed event that carries no source object. */
  const NoSourceText: string := "No source of message"

  /** The states of a media pipeline. */
  datatype EngineState = VoidPending | Null | Ready | Paused | Playing

  /** The object a bus event comes from: an object of type `Pipeline`, some
      other element, or none at all. */
  datatype Source = Unattributed | Pipeline | Element

  /** The events of the pipeline's bus the worker tells apart. */
  datatype BusEvent =
    | Eos
    | StateChanged(source: Source, current: EngineState)
    | Error
    | OtherKind

  /** What one bus event makes the worker do: at most one message to send,
      and whether to quit the main loop afterwards. */
  datatype Reaction = Reaction(sent: Option<Packet>, quit: bool)

  /** The result of handling a stream of bus events: the messages sent, how
      many events were taken from the stream, whether the main loop has been
      told to quit, and the panic text if the handler panicked. Messages sent
      before a panic stay sent. */
  datatype BridgeRun = BridgeRun(sent: seq<Packet>, handled: nat, quit: bool, panic: Option<string>)

  /** One input of the worker's single-threaded main loop: a packet from the
      command endpoint or an event from the pipeline bus. */
  datatype Input = Command(packet: Packet) | Bus(event: BusEvent)

  /** The worker after its main loop has handled some inputs: the state last
      requested of the pipeline, the messages sent to the controller, whether
      the main loop has been told to quit, and the panic text if a handler
      panicked. */
  datatype Session = Session(pipeline: EngineState, sent: seq<Packet>, quit: bool, panic: Option<string>)

  // ---------------------------------------------------------------------
  // Launch description
  // ---------------------------------------------------------------------

  /** The launch description of the pipeline that plays `videoPath`. */
  function PipelineString(videoPath: string): (s: string)
    ensures |s| == |LaunchPrefix| + |videoPath|
    ensures s[..|LaunchPrefix|] == LaunchPrefix
    ensures s[|LaunchPrefix|..] == videoPath
  {
    LaunchPrefix + videoPath
  }

  // ---------------------------------------------------------------------
  // Command dispatch
  // ---------------------------------------------------------------------

  /** The pipeline state a packet received on the command endpoint asks for.
      Only the address pattern of a message counts; bundles are ignored. */
  function Dispatch(p: Packet): (request: Option<EngineState>)
    ensures request == Some(Playing) <==> p.Message? && p.address == CommandPlay
    ensures request == Some(Paused) <==> p.Message? && p.address == CommandPause
    ensures request.Some? ==> request.value == Playing || request.value == Paused
  {
    match p
    case Bundle(_) => None
    case Message(address, _) =>
      if address == CommandPlay then Some(Playing)
      else if address == CommandPause then Some(Paused)
      else None
  }

  /** The arguments of a command message never change what it requests. */
  lemma DispatchIgnoresArguments(address: string, args: seq<Arg>, args': seq<Arg>)
    ensures Dispatch(Message(address, args)) == Dispatch(Message(address, args'))
  {
  }

  // ---------------------------------------------------------------------
  // Event bridge
  // ---------------------------------------------------------------------

  /** The events that make the worker tell its main loop to quit. */
  predicate IsTerminal(e: BusEvent)
  {
    e.Eos? || e.Error?
  }

  /** The events that make the bridge panic: a state change with no source. */
  predicate IsFatal(e: BusEvent)
  {
    e.StateChanged? && e.source == Unattributed
  }

  /** The message that reports entering `current`, if that state is reported. */
  function Forward(current: EngineState): Option<Packet>
  {
    match current
    case Playing => Some(Outgoing(StatePlaying))
    case Paused => Some(Outgoing(StatePaused))
    case _ => None
  }

  /** A message sent while the pipeline keeps running. */
  predicate IsProgressMessage(p: Packet)
  {
    p == Outgoing(StatePlaying) || p == Outgoing(StatePaused)
  }

  /** How the worker reacts to one bus event. */
  function React(e: BusEvent): (r: Outcome<Reaction>)
    ensures r.Panic? <==> IsFatal(e)
    ensures r.Done? ==> (r.value.quit <==> IsTerminal(e))
    ensures e.Eos? ==> r == Done(Reaction(Some(Outgoing(StateEos)), true))
    ensures e.Error? ==> r == Done(Reaction(Some(Outgoing(StateError)), true))
    ensures e.StateChanged? && e.source == Element ==> r == Done(Reaction(None, false))
    ensures e.StateChanged? && e.source == Pipeline ==>
              && r.Done?
              && (r.value.sent == Some(Outgoing(StatePlaying)) <==> e.current == Playing)
              && (r.value.sent == Some(Outgoing(StatePaused)) <==> e.current == Paused)
              && (r.value.sent.None? <==> e.current != Playing && e.current != Paused)
    ensures e.OtherKind? ==> r == Done(Reaction(None, false))
  {
    match e
    case Eos => Done(Reaction(Some(Outgoing(StateEos)), true))
    case StateChanged(source, current) =>
      (match source
       case Unattributed => Panic(NoSourceText)
       case Pipeline => Done(Reaction(Forward(current), false))
       case Element => Done(Reaction(None, false)))
    case Error => Done(Reaction(Some(Outgoing(StateError)), true))
    case OtherKind => Done(Reaction(None, false))
  }

  /** The messages a reaction sends, as a sequence. */
  function Emitted(reaction: Reaction): seq<Packet>
  {
    if reaction.sent.Some? then [reaction.sent.value] else []
  }

  /** Prefixes a run with `sent` messages, `n` handled events and a quit
      request `quit` made while handling them. */
  function Extend(sent: seq<Packet>, n: nat, quit: bool, run: BridgeRun): BridgeRun
  {
    BridgeRun(sent + run.sent, n + run.handled, quit || run.quit, run.panic)
  }

  /** Extending by nothing changes nothing. */
  lemma ExtendNothing(run: BridgeRun)
    ensures Extend([], 0, false, run) == run
  {
  }

  /** Two extensions in a row are one extension by both prefixes. */
  lemma ExtendTwice(sent: seq<Packet>, n: nat, quit: bool, sent': seq<Packet>, n': nat, quit': bool, run: BridgeRun)
    ensures Extend(sent, n, quit, Extend(sent', n', quit', run)) == Extend(sent + sent', n + n', quit || quit', run)
  {
  }

  /** The message handler over the bus events it gets to handle, event by
      event from the front. Asking the main loop to quit does not end the
      handler: it goes on with every event it is still given. Only a panic
      ends it, keeping what was sent before. */
  function Bridge(events: seq<BusEvent>): (r: BridgeRun)
    ensures r.handled <= |events|
    ensures r.panic.None? ==> r.handled == |events|
    ensures r.panic.Some? ==> 1 <= r.handled
    decreases |events|
  {
    if |events| == 0 then BridgeRun([], 0, false, None)
    else
      match React(events[0])
      case Panic(m) => BridgeRun([], 1, false, Some(m))
      case Done(reaction) => Extend(Emitted(reaction), 1, reaction.quit, Bridge(events[1..]))
  }

  /** The message-handler loop: takes bus events one at a time, sending what
      each reports and noting every quit request, until the events run out
      or one of them makes it panic. */
  method RunBridge(events: seq<BusEvent>) returns (r: BridgeRun)
    ensures r == Bridge(events)
  {
    var sent: seq<Packet> := [];
    var quit := false;
    var i := 0;
    assert events[0..] == events;
    ExtendNothing(Bridge(events));
    while i < |events|
      invariant 0 <= i <= |events|
      invariant Bridge(events) == Extend(sent, i, quit, Bridge(events[i..]))
    {
      var rest := events[i..];
      assert rest[0] == events[i];
      assert rest[1..] == events[i + 1..];
      var reaction := React(events[i]);
      if reaction.Panic? {
        assert sent + [] == sent;
        return BridgeRun(sent, i + 1, quit, Some(reaction.message));
      }
      var now := Emitted(reaction.value);
      ExtendTwice(sent, i, quit, now, 1, reaction.value.quit, Bridge(events[i + 1..]));
      sent := sent + now;
      quit := quit || reaction.value.quit;
      i := i + 1;
    }
    assert events[i..] == [];
    assert sent + [] == sent;
    r := BridgeRun(sent, i, quit, None);
  }

  /** The handler has asked the main loop to quit exactly when it has handled
      an end-of-stream or error event. */
  lemma {:induction false} BridgeQuitsOnTerminal(events: seq<BusEvent>)
    ensures var run := Bridge(events);
      run.quit <==> exists i :: 0 <= i < run.handled && IsTerminal(events[i])
    decreases |events|
  {
    if |events| > 0 && React(events[0]).Done? {
      var tail := events[1..];
      BridgeQuitsOnTerminal(tail);
      var run := Bridge(events);
      var rest := Bridge(tail);
      assert forall i :: 1 <= i < run.handled ==> events[i] == tail[i - 1];
      if rest.quit {
        var k :| 0 <= k < rest.handled && IsTerminal(tail[k]);
        assert IsTerminal(events[k + 1]);
      }
      if run.quit && !IsTerminal(events[0]) {
        assert rest.quit;
      }
    }
  }

  /** The handler panics exactly when some event is a state change without a
      source; it stops at the first one, with the text of that panic. */
  lemma {:induction false} BridgePanicsOnUnattributedChange(events: seq<BusEvent>)
    ensures var run := Bridge(events);
      && (run.panic.Some? <==> exists i :: 0 <= i < |events| && IsFatal(events[i]))
      && (run.panic.Some? ==> run.panic == Some(NoSourceText) && IsFatal(events[run.handled - 1]))
      && (forall i :: 0 <= i < run.handled - 1 ==> !IsFatal(events[i]))
    decreases |events|
  {
    if |events| > 0 && !IsFatal(events[0]) {
      var tail := events[1..];
      BridgePanicsOnUnattributedChange(tail);
      var run := Bridge(events);
      var rest := Bridge(tail);
      assert forall i :: 1 <= i < |events| ==> events[i] == tail[i - 1];
      if exists i :: 0 <= i < |events| && IsFatal(events[i]) {
        var k :| 0 <= k < |events| && IsFatal(events[k]);
        assert IsFatal(tail[k - 1]);
      }
      if rest.panic.Some? {
        assert IsFatal(events[rest.handled]);
      }
    }
  }

  /** Handling two batches in turn is handling their concatenation: messages
      accumulate and a quit request is never withdrawn. */
  lemma {:induction false} BridgeAppend(a: seq<BusEvent>, b: seq<BusEvent>)
    requires Bridge(a).panic.None?
    ensures Bridge(a + b) == Extend(Bridge(a).sent, |a|, Bridge(a).quit, Bridge(b))
    decreases |a|
  {
    if |a| == 0 {
      assert a + b == b;
      ExtendNothing(Bridge(b));
    } else {
      var ab := a + b;
      assert ab[0] == a[0];
      assert ab[1..] == a[1..] + b;
      var reaction := React(a[0]).value;
      BridgeAppend(a[1..], b);
      ExtendTwice(Emitted(reaction), 1, reaction.quit, Bridge(a[1..]).sent, |a[1..]|, Bridge(a[1..]).quit, Bridge(b));
    }
  }

  /** After a panic the handler takes no further event. */
  lemma {:induction false} BridgeStopsAtPanic(a: seq<BusEvent>, b: seq<BusEvent>)
    requires Bridge(a).panic.Some?
    ensures Bridge(a + b) == Bridge(a)
    decreases |a|
  {
    var ab := a + b;
    assert ab[0] == a[0];
    assert ab[1..] == a[1..] + b;
    if React(a[0]).Done? {
      BridgeStopsAtPanic(a[1..], b);
    }
  }

  /** When the main loop returns right after the first end-of-stream or error
      event, the handler has sent progress reports followed by exactly one
      final report, the one matching that event. */
  lemma {:induction false} BridgeSendsOneFinalReport(events: seq<BusEvent>)
    requires Bridge(events).panic.None?
    requires |events| > 0 && IsTerminal(events[|events| - 1])
    requires forall i :: 0 <= i < |events| - 1 ==> !IsTerminal(events[i])
    ensures var run := Bridge(events);
      && run.quit
      && |run.sent| > 0
      && run.sent[|run.sent| - 1] == (if events[|events| - 1].Eos? then Outgoing(StateEos) else Outgoing(StateError))
      && forall i :: 0 <= i < |run.sent| - 1 ==> IsProgressMessage(run.sent[i])
    decreases |events|
  {
    var reaction := React(events[0]).value;
    var now := Emitted(reaction);
    if |events| > 1 {
      var tail := events[1..];
      assert forall i :: 0 <= i < |tail| ==> tail[i] == events[i + 1];
      BridgeSendsOneFinalReport(tail);
      var rest := Bridge(tail);
      assert !IsTerminal(events[0]);
      assert forall p :: p in now ==> IsProgressMessage(p);
      var all := now + rest.sent;
      assert forall i :: |now| <= i < |all| ==> all[i] == rest.sent[i - |now|];
    } else {
      assert events[1..] == [];
    }
  }

  /** Events still queued when the handler asks to quit are handled too: two
      queued errors send two error reports. */
  lemma DrainedEventsAreReported()
    ensures Bridge([Error, Error]).sent == [Outgoing(StateError), Outgoing(StateError)]
  {
  }

  // ---------------------------------------------------------------------
  // The worker's main loop
  // ---------------------------------------------------------------------

  /** The bus events among the inputs, in order. */
  function BusEvents(inputs: seq<Input>): seq<BusEvent>
  {
    if |inputs| == 0 then []
    else if inputs[0].Bus? then [inputs[0].event] + BusEvents(inputs[1..])
    else BusEvents(inputs[1..])
  }

  /** The pipeline state after a command packet arrives in state `pipeline`:
      play and pause set it, anything else leaves it as it was. */
  function Apply(pipeline: EngineState, p: Packet): (r: EngineState)
    ensures p.Message? && p.address == CommandPlay ==> r == Playing
    ensures p.Message? && p.address == CommandPause ==> r == Paused
    ensures Dispatch(p).None? ==> r == pipeline
  {
    match Dispatch(p)
    case Some(s) => s
    case None => pipeline
  }

  /** The main loop handling interleaved inputs in the order it dispatches
      them, starting with the pipeline in state `pipeline`. The command
      handler and the message handler both go on until the inputs run out or
      the message handler panics. */
  function Serve(pipeline: EngineState, inputs: seq<Input>): (r: Session)
    ensures |r.sent| <= |BusEvents(inputs)|
    ensures r.panic.Some? ==> r.panic == Some(NoSourceText)
    decreases |inputs|
  {
    if |inputs| == 0 then Session(pipeline, [], false, None)
    else
      match inputs[0]
      case Command(p) => Serve(Apply(pipeline, p), inputs[1..])
      case Bus(e) =>
        match React(e)
        case Panic(m) => Session(pipeline, [], false, Some(m))
        case Done(reaction) =>
          var s := Serve(pipeline, inputs[1..]);
          Session(s.pipeline, Emitted(reaction) + s.sent, reaction.quit || s.quit, s.panic)
  }

  /** The state last requested by a command among the inputs, or `initial`
      when none was. */
  function LastRequest(initial: EngineState, inputs: seq<Input>): EngineState
    decreases |inputs|
  {
    if |inputs| == 0 then initial
    else
      var last := inputs[|inputs| - 1];
      if last.Command? && Dispatch(last.packet).Some? then Dispatch(last.packet).value
      else LastRequest(initial, inputs[..|inputs| - 1])
  }

  /** Commands never influence what the worker reports: the main loop sends
      exactly the messages the message handler sends for the bus events
      alone, and quits and panics exactly when that handler does. */
  lemma {:induction false} ServeReportsLikeBridge(pipeline: EngineState, inputs: seq<Input>)
    ensures Serve(pipeline, inputs).sent == Bridge(BusEvents(inputs)).sent
    ensures Serve(pipeline, inputs).quit == Bridge(BusEvents(inputs)).quit
    ensures Serve(pipeline, inputs).panic == Bridge(BusEvents(inputs)).panic
    decreases |inputs|
  {
    if |inputs| > 0 {
      var tail := inputs[1..];
      match inputs[0]
      case Command(p) =>
        ServeReportsLikeBridge(Apply(pipeline, p), tail);
      case Bus(e) =>
        var events := BusEvents(inputs);
        assert events[0] == e;
        assert events[1..] == BusEvents(tail);
        ServeReportsLikeBridge(pipeline, tail);
    }
  }

  /** Taking the first input off the front commutes with the last request. */
  lemma {:induction false} LastRequestUnfold(initial: EngineState, p: Packet, inputs: seq<Input>)
    ensures LastRequest(initial, [Command(p)] + inputs) == LastRequest(Apply(initial, p), inputs)
    decreases |inputs|
  {
    var all := [Command(p)] + inputs;
    if |inputs| > 0 {
      assert all[..|all| - 1] == [Command(p)] + inputs[..|inputs| - 1];
      assert all[|all| - 1] == inputs[|inputs| - 1];
      LastRequestUnfold(initial, p, inputs[..|inputs| - 1]);
    } else {
      assert all[..0] == [];
    }
  }

  /** A bus event does not change the last request. */
  lemma {:induction false} LastRequestSkipsEvent(initial: EngineState, e: BusEvent, inputs: seq<Input>)
    ensures LastRequest(initial, [Bus(e)] + inputs) == LastRequest(initial, inputs)
    decreases |inputs|
  {
    var all := [Bus(e)] + inputs;
    if |inputs| > 0 {
      assert all[..|all| - 1] == [Bus(e)] + inputs[..|inputs| - 1];
      assert all[|all| - 1] == inputs[|inputs| - 1];
      LastRequestSkipsEvent(initial, e, inputs[..|inputs| - 1]);
    } else {
      assert all[..0] == [];
    }
  }

  /** Unless a handler panicked, the pipeline is in the state the last
      command asked for, or in its initial state when no command asked for
      any; a quit request does not stop commands from being carried out. */
  lemma {:induction false} ServeFollowsLastCommand(pipeline: EngineState, inputs: seq<Input>)
    requires Serve(pipeline, inputs).panic.None?
    ensures Serve(pipeline, inputs).pipeline == LastRequest(pipeline, inputs)
    decreases |inputs|
  {
    if |inputs| > 0 {
      var tail := inputs[1..];
      assert inputs == [inputs[0]] + tail;
      match inputs[0]
      case Command(p) =>
        ServeFollowsLastCommand(Apply(pipeline, p), tail);
        LastRequestUnfold(pipeline, p, tail);
      case Bus(e) =>
        ServeFollowsLastCommand(pipeline, tail);
        LastRequestSkipsEvent(pipeline, e, tail);
    }
  }

  /** After a panic no later input is handled. */
  lemma {:induction false} ServeStopsAtPanic(pipeline: EngineState, inputs: seq<Input>, later: seq<Input>)
    requires Serve(pipeline, inputs).panic.Some?
    ensures Serve(pipeline, inputs + later) == Serve(pipeline, inputs)
    decreases |inputs|
  {
    var all := inputs + later;
    assert all[0] == inputs[0];
    assert all[1..] == inputs[1..] + later;
    match inputs[0]
    case Command(p) =>
      ServeStopsAtPanic(Apply(pipeline, p), inputs[1..], later);
    case Bus(e) =>
      if React(e).Done? {
        ServeStopsAtPanic(pipeline, inputs[1..], later);
      }
  }

  /** The worker process over the inputs its main loop handles: the pipeline
      is first set to `Playing`, then the loop runs; once the loop has been
      told to quit and returns, the pipeline is set to `Null`. */
  function WorkerMain(inputs: seq<Input>): (r: Session)
    ensures r.sent == Bridge(BusEvents(inputs)).sent
    ensures r.panic == Bridge(BusEvents(inputs)).panic
    ensures r.quit == Bridge(BusEvents(inputs)).quit
    ensures r.panic.None? && r.quit ==> r.pipeline == Null
    ensures r.panic.None? && !r.quit ==> r.pipeline == LastRequest(Playing, inputs)
  {
    var s := Serve(Playing, inputs);
    ServeReportsLikeBridge(Playing, inputs);
    if s.panic.None? && s.quit then s.(pipeline := Null)
    else if s.panic.None? then ServeFollowsLastCommand(Playing, inputs); s
    else s
  }
}
